=== FILE: README.md ===
# User account rules and queued cloud-volume operations

A Dafny model of two parts of the management platform's data layer.

- **User accounts** (`app/models/user.rb`):
  - The failed-login lockout. An account is locked while its counter has reached `max_failed_login_attempts`. A threshold of zero or less disables locking. Each failed login raises the counter by one. When that leaves the account locked, one deferred `unlock!` call is put on the work queue (`MiqQueue`), unless one is already pending.
  - The current-group invariant. The current group is nil or one of the user's groups. The model covers `miq_groups=`, `change_current_group` and `current_group_by_description=`.
  - The reserved-userid validation, the blank-email normalisation and the lower-case projections.
  - The destroy guard (`check_reference`), `admin?` and `missing_user_features`.
- **Cloud volumes** (`app/models/cloud_volume/operations.rb`):
  - `attach_volume_queue` and `detach_volume_queue`. Each builds a task descriptor and a routing descriptor and submits both to the task facility (`MiqTask.generic_action_with_callback`).
  - The three capability validations, which return `{available, message}`.

Everything is a pure function over immutable records. The clock (`now`), the two settings and the work queue are parameters. The work queue is a set of pending messages. The task facility is a recorder of submissions: each call returns the position of its submission as the task id.

Files:
- `results.dfy`: Option and Result.
- `text.dfy`: `downcase`, `blank?`, substring and `join`.
- `seqs.dfy`: `detect`.
- `users.dfy`: the User record and its checks.
- `user_groups.dfy`: the current group.
- `miq_queue.dfy`: `put_unless_exists`.
- `lockout.dfy`: the lockout state machine.
- `cloud_volume_operations.dfy`: the volume operations.

## Model

| member | source | states |
|---|---|---|
| Lockout.Locked | app/models/user.rb:197-199 | `locked?`: with a positive threshold, locked iff the counter has reached it; with a threshold of zero or less, never locked; a locked account has at least one failure |
| Lockout.LockedMonotone | app/models/user.rb:197-199 | More failures never unlock an account |
| Lockout.NonPositiveThresholdNeverLocks | app/models/user.rb:197-199 | With a threshold of zero or less, `locked?` is false for every counter value |
| Lockout.Unlock | app/models/user.rb:201-203 | `unlock!` zeroes the counter, and the account is then unlocked under every setting. Its `update!` runs the `before_validation` callback that clears a blank email (user.rb:150, 174-176); no other field changes |
| Lockout.UnlockIdempotent | app/models/user.rb:201-203 | Unlocking twice equals unlocking once |
| Lockout.UnlockQueue | app/models/user.rb:478-486 | Afterwards an unlock for the user is pending. If one already was, the queue is unchanged. Otherwise exactly one message is added: (User, id, `unlock!`), most urgent priority, due `now + locked_account_timeout`. A queue with no duplicate targets keeps none |
| Lockout.FailLogin | app/models/user.rb:205-209 | `fail_login!` raises the counter by exactly one. Its `update!` clears a blank email, and nothing else of the user changes. The unlock is queued iff the new count locks the account, otherwise the queue is untouched. Anything added is an unlock for this user |
| Lockout.FailLoginWhileLockedAddsNoJob | app/models/user.rb:205-209 | A failed login on a locked account whose unlock is already pending adds no second job |
| Lockout.FailLoginsEffect | app/models/user.rb:197-209 | After n failed logins: the counter rose by n, and for n > 0 the only other change is the cleared blank email; locked iff the threshold is positive and reached; only unlocks for this user were queued; a queue that started without duplicate targets still has none; for n > 0, a locked account has its unlock pending |
| Lockout.ThresholdFailuresLockThenUnlock | app/models/user.rb:197-209 | With threshold T > 0 and a queue without duplicate targets, T failed logins from zero lock the account with exactly one pending unlock, and `unlock!` then unlocks it |
| Lockout.FailLoginsBeforeThreshold | app/models/user.rb:205-209 | Failures that stay below a positive threshold queue nothing |
| Lockout.FailLoginsThresholdQueues | app/models/user.rb:205-209 | From a zero counter with no unlock pending, the T-th failure (T the threshold) queues the unlock due after that failure's own time, and it is still queued after any further failures |
| Lockout.DeliverUnlock | app/models/user.rb:201-203 | The worker delivering a due unlock message removes it from the queue and runs `unlock!`. Afterwards a queue without duplicate targets has no unlock pending for the account |
| Lockout.RelockAfterDeliveryQueuesNewJob | app/models/user.rb:478-486 | After the pending unlock is delivered, T or more further failures lock the account again and leave queued a fresh unlock, due after the T-th of them, that was not in the queue before |
| MiqQueue.PutUnlessExists | app/models/user.rb:480-485 | The message is added only when no message with the same class, instance and method is pending. The queue only grows. Queues without duplicate targets stay that way |
| MiqQueue.PutUnlessExistsIdempotent | app/models/user.rb:480-485 | Putting a message for the same target again leaves the queue unchanged |
| MiqQueue.DeduplicatedPendingAtMostOne | app/models/user.rb:480-485 | In a queue without duplicate targets, each target has at most one pending message, and exactly one once it is pending |
| Users.Validate | app/models/user.rb:146-148 | One userid error iff the whole userid lower-cases to "system"; no error for any other userid or for nil (corrected, see Findings) |
| Users.ValidateAsWritten | app/models/user.rb:146-148 | As written: one userid error iff some line of the userid is "system" ignoring case |
| Users.ValidateRefinesAsWritten | app/models/user.rb:146-148 | Every userid the corrected check refuses, the written check refuses too |
| Users.ValidateAsWrittenRefusesMultilineUserid | app/models/user.rb:146-148 | The written check refuses "ops\nsystem", which the corrected check accepts |
| Users.CheckReference | app/models/user.rb:154-164 | Destroy aborts iff one of requests, VMs, widgets, templates is non-empty. The base error lists exactly the non-empty ones in the fixed order MiqRequest, Vm, MiqWidget, MiqTemplate |
| Users.PresentModelsOfChecked | app/models/user.rb:156-158 | Filtering the four associations in checking order gives the field-by-field list of present models |
| Text.NatToString | app/models/user.rb:161 | The `#{id}` interpolation: a non-empty digit string, without a leading zero unless it is "0", whose decimal value is the id |
| Users.ReferenceErrorNamesModels | app/models/user.rb:160-161 | The abort message contains the name of every referenced model |
| Text.DowncaseMatchesIgnoringCase | app/models/user.rb:134-136 | Two strings have the same lower-case form iff they have equal length and, position by position, the same character or an ASCII letter and its other-case form |
| Users.LowerEmail | app/models/user.rb:127-129 | nil iff the email is nil; otherwise equal to the email ignoring case (character by character) and already lower-case |
| Users.LowerUserid | app/models/user.rb:134-136 | nil iff the userid is nil; otherwise equal to the userid ignoring case (character by character) and already lower-case |
| Users.LowerUseridMatchesIgnoringCase | app/models/user.rb:134-136 | Two users have the same lower userid iff their userids have equal length and, position by position, the same character or an ASCII letter and its other-case form |
| Users.NilEmailFieldIfBlank | app/models/user.rb:174-176 | A blank email becomes nil and any other is kept. The result never holds a blank email. No other field changes |
| Users.NilEmailFieldIfBlankIdempotent | app/models/user.rb:174-176 | Normalising twice equals normalising once |
| Users.IsAdmin | app/models/user.rb:335-341 | True iff the userid is exactly "admin"; such a user's lower userid is "admin" |
| Users.AdminIsCaseSensitive | app/models/user.rb:339-341 | "ADMIN" is not an administrator, though its lower userid is "admin" |
| Users.MissingUserFeatures | app/models/user.rb:421-429 | The first missing item in the order User, Group, Role; nil iff the user, its current group and that group's role all exist |
| UserGroups.SetMiqGroups | app/models/user.rb:321-324 | Membership becomes `gs` and the current group stays nil or a member. A current group still in `gs` is kept; otherwise the first of `gs` is current, or nil when `gs` is empty |
| UserGroups.SetMiqGroupsIdempotent | app/models/user.rb:321-324 | Assigning the same groups twice equals assigning them once |
| UserGroups.ChangeCurrentGroup | app/models/user.rb:326-333 | Raises iff every group of the user has the current group's id. Otherwise the new current group is the first member with another id. It differs from the old one and it is a member. The `save!` clears a blank email; nothing else changes |
| UserGroups.ChangeAfterTwoDistinctGroups | app/models/user.rb:321-333 | After assigning groups with two different ids, the current group can always be changed |
| UserGroups.CurrentGroupByDescription | app/models/user.rb:166-172 | A nil description changes nothing. Otherwise the first member group with that description becomes current. Failing that, a super administrator gets the first of the region's groups with that description. If neither exists, nothing changes. Any new current group carries the description, and only the current group changes |
| CloudVolumeOperations.AttachVolumeQueue | app/models/cloud_volume/operations.rb:13-30 | Exactly one submission is appended. It routes `attach_volume` to this volume's class and id, on role `ems_operations`, with the queue name and zone of the volume's EMS. Its args are [server_ems_ref, device]. Its task carries the caller's userid. The facility's result is returned unchanged. Without an EMS nothing is submitted |
| CloudVolumeOperations.AttachWithoutDevicePassesNil | app/models/cloud_volume/operations.rb:13-26 | Omitting the device, which defaults to nil, queues nil as the second argument |
| CloudVolumeOperations.GenericActionWithCallback | app/models/cloud_volume/operations.rb:29 | The task facility appends exactly one submission and keeps the earlier ones; the task id names the new submission and none of the earlier ones |
| CloudVolumeOperations.DetachVolumeQueue | app/models/cloud_volume/operations.rb:40-57 | The same as attaching, with `detach_volume` and args [server_ems_ref] |
| CloudVolumeOperations.AttachDetachShareRouting | app/models/cloud_volume/operations.rb:13-57 | Attach and detach on one volume share class, instance, role, queue and zone, and differ only in method and args |
| CloudVolumeOperations.AttachTwiceSubmitsTwice | app/models/cloud_volume/operations.rb:13-30 | No deduplication: two identical calls submit two equal descriptors under distinct task ids |
| CloudVolumeOperations.ValidateVolume | app/models/cloud_volume/operations.rb:64-70 | Available iff there is an EMS; a message, non-empty, iff unavailable |
| CloudVolumeOperations.ValidateUnsupported | app/models/cloud_volume/operations.rb:72-75 | Never available. The message starts with the prefix and contains the class name |
| CloudVolumeOperations.ValidationFailed | app/models/cloud_volume/operations.rb:77-82 | Never available. The message contains the class name, the operation and the reason |

## Findings

| source | as written | input that shows it | evidently intended | confidence | as-written member | corrected member |
|---|---|---|---|---|---|---|
| app/models/user.rb:147 | `userid =~ /^system$/i` uses Ruby's `^` and `$`, which anchor at line boundaries, so any userid with a line equal to "system" is refused | userid "ops\nsystem" gets the reserved-userid error | only the userid "system", in any case, is reserved (whole-string `\A…\z`), as the error message says | medium, not executed | Users.ValidateAsWrittenRefusesMultilineUserid | Users.Validate |

## Left out

- Users.LowerEmail: folds only ASCII letters. Ruby's `downcase` folds all of Unicode; the model has no Unicode case table.
- Users.LowerUserid: folds only ASCII letters, for the same reason.
- Users.Validate: the `i` flag is modelled as ASCII case folding. Ruby also folds some non-ASCII characters, such as U+017F matching `s`.
- Users.ValidateAsWritten: the same ASCII-only case folding.
- Whether the framework calls the instance method `validate` during saving is outside this model. It is modelled as the validation its name and message describe.
- Users.NilEmailFieldIfBlank: `blank?` is modelled with the Unicode `[[:space:]]` class written out. ActiveSupport, where `blank?` is defined, is not part of this model.
- Lockout.Unlock: `update!` can raise when another validation fails; the model assumes the save succeeds.
- UserGroups.ChangeCurrentGroup: `save!` can raise when another validation fails; the model assumes the save succeeds.
- The `dummy_password_for_external_auth` callback, which also runs on every save, is left out with the rest of authentication: the record has no password.
- Lockout.DeliverUnlock: the queue worker belongs to MiqQueue, which is not part of this model. Delivery is modelled only as removing the message and running `unlock!` once its due time has come; retries and failures are not modelled.
- Lockout.FailLogin: `update!` can raise when another validation fails; the model assumes the save succeeds. The counter is saved before `unlock_queue` runs, so a `put_unless_exists` that raises leaves the raised counter saved, and the lock stays, with no unlock queued. The model treats the save and the put as one step that always succeeds, so it cannot express that state. The counter is unbounded here, while the database column is an integer column. The unguarded read-modify-write race between concurrent failed logins is not modelled.
- MiqQueue.PutUnlessExists: MiqQueue's source is not part of this model. Deduplication is keyed on class, instance and method. An existing message keeps its original due time. `MAX_PRIORITY` is taken as 0; the proofs only use that it is one fixed value.
- UserGroups.CurrentGroupByDescription: the region lookup (`MiqGroup.in_region(...).find_by`) is a sequence searched in order. The database's row order is unspecified. The save-time inclusion validation, which a super administrator's non-member group would fail, is not modelled here.
- UserGroups.ChangeCurrentGroup: `MiqGroup.find_by` is taken to find the member group with that id.
- CloudVolumeOperations.AttachVolumeQueue: a nil EMS raises `NoMethodError` in the source; the model returns `Err(NoManagementSystem)` instead. The userid and server reference are non-nil strings, as the source comment requires. The same holds for DetachVolumeQueue.
- The synchronous `attach_volume`/`detach_volume` and the provider calls `raw_attach_volume`/`raw_detach_volume` are left out as provider I/O. So is the `supports_not` feature registration.
- The internals of MiqTask are left out; the task facility is a recorder.
- Messages are English strings in the source's templates. Localisation (`_()`) is not modelled.
- Associations, scopes and the tenant, region and lookup queries are left out. This covers `tenant_id_clause`, `with_roles_excluding`, `lookup_by_*`, `regional_users` and `with_groups`: they are persistence and SQL generation.
- The remaining declarative validations are left out because they depend on the database or on regular expressions defined elsewhere. These are presence, length, uniqueness within region and email format.
- Authentication is left out because the authenticator's behaviour is not visible here. This covers `authenticate`, `dummy_password_for_external_auth`, `change_password`, `authorize_user*` and `metadata_for_system_token`.
- Sessions are left out because they depend on the session store, token caches and Rack requests. This covers `link_to_session`, `revoke_sessions` and `broadcast_revoke_sessions`.
- Thread-local current-user state is left out. This covers `with_user`, `with_user_group`, `current_user` and `current_userid`.
- Seeding from YAML, time zones, `get_expressions`, `logoff`, `accessible_vms` and `destroy_subscribed_widget_sets` are left out as I/O or ORM queries.
- The delegations `ldap_group`, `role_allows?` and `miq_user_role_name` are left out as role lookups owned by other models.

=== FILE: cloud_volume_operations.dfy ===
/** Queued attach/detach of a cloud volume (`CloudVolume::Operations`) and
    the capability validations offered beside them.

    `attach_volume_queue` and `detach_volume_queue` build a task descriptor and
    a queue-routing descriptor and hand both to the task facility
    (`MiqTask.generic_action_with_callback`), returning its task id. The
    facility is modelled as a recorder of submissions whose task id is the
    submission's position. */
module CloudVolumeOperations {
  import opened Results
  import opened Text

  /** The owning management system: where its operations are queued. */
  datatype Ems = Ems(queueNameForEmsOperations: string, myZone: string)

  /** A cloud volume record: its class name, id and owning management system. */
  datatype CloudVolume = CloudVolume(className: string, id: nat, ems: Option<Ems>)

  /** `task_opts` */
  datatype TaskOptions = TaskOptions(action: string, userid: string)

  /** `queue_opts`; `args` are the positional arguments, nil as None. */
  datatype QueueOptions = QueueOptions(
    className: string,
    methodName: string,
    instanceId: nat,
    role: string,
    queueName: string,
    zone: string,
    args: seq<Option<string>>)

  datatype Submission = Submission(task: TaskOptions, queue: QueueOptions)

  /** The task facility: every submission so far, in order. */
  datatype TaskFacility = TaskFacility(submissions: seq<Submission>)

  /** A task id and the facility after the submission that produced it. */
  datatype Submitted = Submitted(taskId: nat, facility: TaskFacility)

  /** Why a queued operation could not be built: the volume has no management
      system, so reading its queue name fails. */
  datatype QueueError = NoManagementSystem

  const EmsOperationsRole: string := "ems_operations"
  const AttachMethod: string := "attach_volume"
  const DetachMethod: string := "detach_volume"

  /** `MiqTask.generic_action_with_callback`: exactly one submission is
      appended, and the returned task id names it and no earlier one. */
  function GenericActionWithCallback(f: TaskFacility, t: TaskOptions, q: QueueOptions): (r: Submitted)
    ensures |r.facility.submissions| == |f.submissions| + 1
    ensures r.facility.submissions[..|f.submissions|] == f.submissions
    ensures r.taskId < |r.facility.submissions| && r.facility.submissions[r.taskId] == Submission(t, q)
    ensures r.taskId >= |f.submissions|
  {
    Submitted(|f.submissions|, TaskFacility(f.submissions + [Submission(t, q)]))
  }

  /** The routing descriptor for `methodName` on volume `v` of system `ems`. */
  function RoutingFor(v: CloudVolume, ems: Ems, methodName: string, args: seq<Option<string>>): QueueOptions {
    QueueOptions(v.className, methodName, v.id, EmsOperationsRole,
                 ems.queueNameForEmsOperations, ems.myZone, args)
  }

  /** The routing descriptor `q` sends `methodName` to volume `v`, on the
      operations role, queue and zone of `v`'s management system. */
  predicate RoutesTo(q: QueueOptions, v: CloudVolume, methodName: string) {
    v.ems.Some?
    && q.className == v.className && q.methodName == methodName && q.instanceId == v.id
    && q.role == EmsOperationsRole
    && q.queueName == v.ems.value.queueNameForEmsOperations && q.zone == v.ems.value.myZone
  }

  /** The task descriptor `t` was made for `userid` and its action names the user. */
  predicate TaskFor(t: TaskOptions, userid: string) {
    t.userid == userid && Contains(t.action, userid)
  }

  /** `attach_volume_queue(userid, server_ems_ref, device = nil)`; the device
      defaults to None like Ruby's `device = nil`. Exactly one submission is
      added, routed to `attach_volume` on this volume's system with arguments
      [server_ems_ref, device], and the facility's task id is returned as it
      is. Without a management system nothing is submitted. */
  function AttachVolumeQueue(v: CloudVolume, userid: string, serverEmsRef: string,
                             f: TaskFacility, device: Option<string> := None): (r: Result<Submitted, QueueError>)
    ensures r.Err? <==> v.ems.None?
    ensures r.Ok? ==>
      |r.value.facility.submissions| == |f.submissions| + 1
      && r.value.facility.submissions[..|f.submissions|] == f.submissions
    ensures r.Ok? ==>
      var sub := r.value.facility.submissions[|f.submissions|];
      RoutesTo(sub.queue, v, AttachMethod)
      && sub.queue.args == [Some(serverEmsRef), device]
      && TaskFor(sub.task, userid)
      && r.value == GenericActionWithCallback(f, sub.task, sub.queue)
  {
    match v.ems
    case None => Err(NoManagementSystem)
    case Some(ems) =>
      var prefix := "attaching Cloud Volume for user ";
      ContainsMiddle(prefix, userid, "");
      assert prefix + userid + "" == prefix + userid;
      var task := TaskOptions(prefix + userid, userid);
      var queue := RoutingFor(v, ems, AttachMethod, [Some(serverEmsRef), device]);
      Ok(GenericActionWithCallback(f, task, queue))
  }

  /** `detach_volume_queue(userid, server_ems_ref)`: as attaching, routed to
      `detach_volume` with the single argument [server_ems_ref]. */
  function DetachVolumeQueue(v: CloudVolume, userid: string, serverEmsRef: string,
                             f: TaskFacility): (r: Result<Submitted, QueueError>)
    ensures r.Err? <==> v.ems.None?
    ensures r.Ok? ==>
      |r.value.facility.submissions| == |f.submissions| + 1
      && r.value.facility.submissions[..|f.submissions|] == f.submissions
    ensures r.Ok? ==>
      var sub := r.value.facility.submissions[|f.submissions|];
      RoutesTo(sub.queue, v, DetachMethod)
      && sub.queue.args == [Some(serverEmsRef)]
      && TaskFor(sub.task, userid)
      && r.value == GenericActionWithCallback(f, sub.task, sub.queue)
  {
    match v.ems
    case None => Err(NoManagementSystem)
    case Some(ems) =>
      var prefix := "detaching Cloud Volume for user ";
      ContainsMiddle(prefix, userid, "");
      assert prefix + userid + "" == prefix + userid;
      var task := TaskOptions(prefix + userid, userid);
      var queue := RoutingFor(v, ems, DetachMethod, [Some(serverEmsRef)]);
      Ok(GenericActionWithCallback(f, task, queue))
  }

  /** Omitting the device queues nil as the second argument. */
  lemma AttachWithoutDevicePassesNil(v: CloudVolume, userid: string, ref: string, f: TaskFacility)
    requires v.ems.Some?
    ensures AttachVolumeQueue(v, userid, ref, f).value.facility.submissions[|f.submissions|].queue.args
            == [Some(ref), None]
  {
  }

  /** Attaching and detaching the same volume go to the same class, instance,
      role, queue and zone; they differ only in method name and arguments. */
  lemma AttachDetachShareRouting(v: CloudVolume, userid: string, ref: string,
                                 device: Option<string>, f: TaskFacility)
    requires v.ems.Some?
    ensures var a := AttachVolumeQueue(v, userid, ref, f, device).value.facility.submissions[|f.submissions|].queue;
      var d := DetachVolumeQueue(v, userid, ref, f).value.facility.submissions[|f.submissions|].queue;
      a.(methodName := d.methodName, args := d.args) == d
  {
  }

  /** No deduplication: queueing the same attach twice submits two tasks with
      distinct ids. */
  lemma AttachTwiceSubmitsTwice(v: CloudVolume, userid: string, ref: string,
                                device: Option<string>, f: TaskFacility)
    requires v.ems.Some?
    ensures var r1 := AttachVolumeQueue(v, userid, ref, f, device).value;
      var r2 := AttachVolumeQueue(v, userid, ref, r1.facility, device).value;
      |r2.facility.submissions| == |f.submissions| + 2 && r1.taskId != r2.taskId
      && r2.facility.submissions[|f.submissions|] == r2.facility.submissions[|f.submissions| + 1]
  {
  }

  // ---------------------------------------------------------------------
  // Capability validations

  /** `{available, message}`; a nil message is None. */
  datatype Availability = Availability(available: bool, message: Option<string>)

  const NotConnectedMessage: string := "The Volume is not connected to an active Provider"

  /** `validate_volume(ems)`: available exactly when there is a management
      system, with a message exactly when unavailable. */
  function ValidateVolume(ems: Option<Ems>): (r: Availability)
    ensures r.available <==> ems.Some?
    ensures r.message.None? <==> r.available
    ensures r.message.Some? ==> |r.message.value| > 0
  {
    if ems.None? then Availability(false, Some(NotConnectedMessage))
    else Availability(true, None)
  }

  /** `validate_unsupported(prefix)` on class `className`: never available; the
      message starts with the prefix and names the class. */
  function ValidateUnsupported(className: string, messagePrefix: string): (r: Availability)
    ensures !r.available && r.message.Some?
    ensures |messagePrefix| <= |r.message.value| && r.message.value[..|messagePrefix|] == messagePrefix
    ensures Contains(r.message.value, className)
  {
    var head := messagePrefix + " is not available for ";
    ContainsMiddle(head, className, ".");
    Availability(false, Some(head + className + "."))
  }

  /** `validation_failed(operation, reason)` on class `className`: never
      available; the message names the class, the operation and the reason. */
  function ValidationFailed(className: string, operation: string, reason: string): (r: Availability)
    ensures !r.available && r.message.Some?
    ensures Contains(r.message.value, className)
    ensures Contains(r.message.value, operation)
    ensures Contains(r.message.value, reason)
  {
    var a := "Validation failed for ";
    var b := " operation ";
    var c := ". ";
    var msg := a + className + b + operation + c + reason;
    ContainsMiddle(a, className, b + operation + c + reason);
    ContainsMiddle(a + className + b, operation, c + reason);
    ContainsMiddle(a + className + b + operation + c, reason, "");
    assert a + className + (b + operation + c + reason) == msg;
    assert a + className + b + operation + (c + reason) == msg;
    assert a + className + b + operation + c + reason + "" == msg;
    Availability(false, Some(msg))
  }
}

=== FILE: lockout.dfy ===
/** Failed-login lockout of a user account (`locked?`, `unlock!`,
    `fail_login!` and the private `unlock_queue`).

    An account is locked while its failed-login counter has reached the
    configured threshold; a threshold of zero or less disables locking. Each
    failed login raises the counter by one and, when that leaves the account
    locked, puts a delayed `unlock!` call on the work queue unless one is
    already pending for the account. The clock and the queue are parameters. */
module Lockout {
  import opened Text
  import opened Users
  import opened MiqQueue

  /** The two `::Settings.authentication` values the lockout reads. */
  datatype Settings = Settings(maxFailedLoginAttempts: int, lockedAccountTimeout: int)

  /** A user together with the work queue it shares with every other account. */
  datatype Account = Account(user: User, queue: set<Message>)

  const UserClassName: string := "User"
  const UnlockMethod: string := "unlock!"

  /** `locked?`: with a positive threshold, the counter has reached it; with a
      threshold of zero or less, never. A locked account has failed at least once. */
  function Locked(u: User, s: Settings): (r: bool)
    ensures s.maxFailedLoginAttempts <= 0 ==> !r
    ensures s.maxFailedLoginAttempts > 0 ==> (r <==> u.failedLoginAttempts >= s.maxFailedLoginAttempts)
    ensures r ==> u.failedLoginAttempts > 0
  {
    s.maxFailedLoginAttempts > 0 && u.failedLoginAttempts >= s.maxFailedLoginAttempts
  }

  /** Further failures never unlock an account. */
  lemma LockedMonotone(u: User, s: Settings, n: nat)
    requires Locked(u, s)
    ensures Locked(u.(failedLoginAttempts := u.failedLoginAttempts + n), s)
  {
  }

  /** A threshold of zero or less never locks, whatever the counter. */
  lemma NonPositiveThresholdNeverLocks(u: User, s: Settings)
    requires s.maxFailedLoginAttempts <= 0
    ensures !Locked(u, s)
  {
  }

  /** `unlock!`: the counter is reset, which unlocks the account under every
      setting. `update!` runs the `before_validation` callbacks, so a blank
      email is cleared as well; nothing else changes. */
  function Unlock(u: User): (r: User)
    ensures r.failedLoginAttempts == 0
    ensures r == NilEmailFieldIfBlank(u).(failedLoginAttempts := r.failedLoginAttempts)
    ensures r.email.Some? ==> !IsBlank(r.email.value)
    ensures forall s :: !Locked(r, s)
  {
    NilEmailFieldIfBlank(u).(failedLoginAttempts := 0)
  }

  lemma UnlockIdempotent(u: User)
    ensures Unlock(Unlock(u)) == Unlock(u)
  {
  }

  /** The deferred `unlock!` call on the user with id `id`, due at `due`, at
      the most urgent priority. */
  function UnlockCall(id: nat, due: int): Message {
    Message(UserClassName, id, UnlockMethod, MaxPriority, due)
  }

  /** The unlock `unlock_queue` puts for `u` at `now`: due
      `lockedAccountTimeout` seconds later. */
  function UnlockMessage(u: User, s: Settings, now: int): Message {
    UnlockCall(u.id, now + s.lockedAccountTimeout)
  }

  /** The message `m` is an `unlock!` call on the user with id `id`, whatever
      its due time. */
  predicate IsUnlockFor(m: Message, id: nat) {
    SameTarget(m, UnlockCall(id, m.deliverOn))
  }

  /** An unlock of the user with id `id` is pending in `q`. A pending message
      is compared by target only, so the due time given here is immaterial. */
  predicate HasPendingUnlock(q: set<Message>, id: nat) {
    HasPending(q, UnlockCall(id, 0))
  }

  /** `unlock_queue`: an unlock of `u` is pending afterwards; when none was,
      exactly one, due `now + lockedAccountTimeout` at the most urgent priority,
      has been added; when one was, the queue is unchanged. */
  function UnlockQueue(u: User, s: Settings, now: int, q: set<Message>): (r: set<Message>)
    ensures HasPendingUnlock(r, u.id)
    ensures HasPendingUnlock(q, u.id) ==> r == q
    ensures !HasPendingUnlock(q, u.id) ==>
      r == q + {UnlockMessage(u, s, now)}
    ensures Deduplicated(q) ==> Deduplicated(r)
  {
    var m := UnlockMessage(u, s, now);
    assert HasPending(q, m) <==> HasPendingUnlock(q, u.id) by {
      if HasPending(q, m) {
        var e :| e in q && SameTarget(e, m);
        assert IsUnlockFor(e, u.id);
      }
      if HasPendingUnlock(q, u.id) {
        var e :| e in q && SameTarget(e, UnlockCall(u.id, 0));
        assert SameTarget(e, m);
      }
    }
    var r := PutUnlessExists(q, m);
    assert IsUnlockFor(m, u.id);
    r
  }

  /** `fail_login!`: the counter goes up by exactly one; the `update!` clears a
      blank email and changes nothing else of the user; the unlock is queued
      exactly when the new count locks the account, otherwise the queue is
      untouched. */
  function FailLogin(u: User, s: Settings, now: int, q: set<Message>): (r: Account)
    ensures r.user.failedLoginAttempts == u.failedLoginAttempts + 1
    ensures r.user == NilEmailFieldIfBlank(u).(failedLoginAttempts := r.user.failedLoginAttempts)
    ensures Locked(r.user, s) ==> r.queue == UnlockQueue(r.user, s, now, q)
    ensures !Locked(r.user, s) ==> r.queue == q
    ensures Locked(r.user, s) ==> HasPendingUnlock(r.queue, u.id)
    ensures q <= r.queue
    ensures forall e :: e in r.queue && e !in q ==> IsUnlockFor(e, u.id)
  {
    var u' := NilEmailFieldIfBlank(u).(failedLoginAttempts := u.failedLoginAttempts + 1);
    if Locked(u', s) then Account(u', UnlockQueue(u', s, now, q)) else Account(u', q)
  }

  /** A failed login on an account that is already locked, with its unlock
      already pending, leaves the queue exactly as it was. */
  lemma FailLoginWhileLockedAddsNoJob(u: User, s: Settings, now: int, q: set<Message>)
    requires Locked(u, s) && HasPendingUnlock(q, u.id)
    ensures FailLogin(u, s, now, q).queue == q
  {
  }

  /** Consecutive failed logins at the instants `times`. */
  function FailLogins(u: User, s: Settings, times: seq<int>, q: set<Message>): Account
    decreases |times|
  {
    if |times| == 0 then Account(u, q)
    else
      var a := FailLogin(u, s, times[0], q);
      FailLogins(a.user, s, times[1..], a.queue)
  }

  /** After n failed logins the counter has risen by n, the account is locked
      exactly when the threshold is positive and reached, only unlock calls for
      this account have been queued, and no target is ever queued twice. */
  lemma {:induction false} FailLoginsEffect(u: User, s: Settings, times: seq<int>, q: set<Message>)
    ensures FailLogins(u, s, times, q).user.failedLoginAttempts == u.failedLoginAttempts + |times|
    ensures |times| > 0 ==>
      FailLogins(u, s, times, q).user
        == NilEmailFieldIfBlank(u).(failedLoginAttempts := u.failedLoginAttempts + |times|)
    ensures Locked(FailLogins(u, s, times, q).user, s) <==>
      s.maxFailedLoginAttempts > 0 && u.failedLoginAttempts + |times| >= s.maxFailedLoginAttempts
    ensures q <= FailLogins(u, s, times, q).queue
    ensures forall e :: e in FailLogins(u, s, times, q).queue && e !in q ==> IsUnlockFor(e, u.id)
    ensures Deduplicated(q) ==> Deduplicated(FailLogins(u, s, times, q).queue)
    ensures |times| > 0 && Locked(FailLogins(u, s, times, q).user, s) ==>
      HasPendingUnlock(FailLogins(u, s, times, q).queue, u.id)
    decreases |times|
  {
    if |times| > 0 {
      var a := FailLogin(u, s, times[0], q);
      FailLoginsEffect(a.user, s, times[1..], a.queue);
      var r := FailLogins(a.user, s, times[1..], a.queue);
      if |times| > 1 && Locked(r.user, s) {
        assert HasPendingUnlock(r.queue, u.id);
      } else if Locked(r.user, s) {
        assert r == a;
      }
    }
  }

  /** With a positive threshold T, T failed logins from a fresh counter lock
      the account with exactly one unlock pending (given no unlock was pending
      and the queue had no duplicate targets); `unlock!` then unlocks it. */
  lemma ThresholdFailuresLockThenUnlock(u: User, s: Settings, times: seq<int>, q: set<Message>)
    requires s.maxFailedLoginAttempts > 0 && |times| == s.maxFailedLoginAttempts
    requires u.failedLoginAttempts == 0
    requires Deduplicated(q)
    ensures var a := FailLogins(u, s, times, q);
      Locked(a.user, s)
      && |Pending(a.queue, UnlockMessage(u, s, 0))| == 1
      && !Locked(Unlock(a.user), s)
  {
    FailLoginsEffect(u, s, times, q);
    var a := FailLogins(u, s, times, q);
    var m := UnlockMessage(u, s, 0);
    var e :| e in a.queue && SameTarget(e, UnlockCall(u.id, 0));
    assert SameTarget(e, m);
    DeduplicatedPendingAtMostOne(a.queue, m);
  }

  /** The queue worker delivering a due `unlock!` message of the account: the
      message leaves the queue and `unlock!` runs on the user. */
  function DeliverUnlock(a: Account, m: Message, now: int): (r: Account)
    requires m in a.queue && IsUnlockFor(m, a.user.id) && m.deliverOn <= now
    ensures r.user == Unlock(a.user)
    ensures r.queue == a.queue - {m} && m !in r.queue
    ensures Deduplicated(a.queue) ==> Deduplicated(r.queue) && !HasPendingUnlock(r.queue, a.user.id)
  {
    Account(Unlock(a.user), a.queue - {m})
  }

  /** Once the pending unlock has been delivered, locking the account again
      queues a fresh unlock, due `lockedAccountTimeout` after the failure that
      reaches the threshold, and it stays queued through any later failures. */
  lemma {:induction false} RelockAfterDeliveryQueuesNewJob(
    a: Account, m: Message, deliveredAt: int, s: Settings, times: seq<int>)
    requires Deduplicated(a.queue)
    requires m in a.queue && IsUnlockFor(m, a.user.id) && m.deliverOn <= deliveredAt
    requires s.maxFailedLoginAttempts > 0 && |times| >= s.maxFailedLoginAttempts
    ensures var d := DeliverUnlock(a, m, deliveredAt);
      var r := FailLogins(d.user, s, times, d.queue);
      var job := UnlockMessage(a.user, s, times[s.maxFailedLoginAttempts - 1]);
      Locked(r.user, s) && job in r.queue && job !in a.queue - {m}
  {
    var d := DeliverUnlock(a, m, deliveredAt);
    FailLoginsThresholdQueues(d.user, s, times, d.queue);
  }

  /** Starting from a zero counter with no unlock pending, the T-th failure
      (T the threshold) is the one that queues the unlock, due after that
      failure's own time, and the unlock is still queued after any further
      failures. */
  lemma {:induction false} FailLoginsThresholdQueues(u: User, s: Settings, times: seq<int>, q: set<Message>)
    requires u.failedLoginAttempts == 0 && !HasPendingUnlock(q, u.id)
    requires s.maxFailedLoginAttempts > 0 && |times| >= s.maxFailedLoginAttempts
    ensures var r := FailLogins(u, s, times, q);
      var job := UnlockMessage(u, s, times[s.maxFailedLoginAttempts - 1]);
      Locked(r.user, s) && job in r.queue && job !in q
  {
    var t := s.maxFailedLoginAttempts;
    var before := times[..t - 1];
    FailLoginsBeforeThreshold(u, s, before, q);
    var a := FailLogins(u, s, before, q);
    var last := FailLogin(a.user, s, times[t - 1], a.queue);
    FailLoginsSplit(u, s, before, [times[t - 1]], q);
    assert before + [times[t - 1]] == times[..t];
    assert FailLogins(a.user, s, [times[t - 1]], a.queue) == FailLogins(last.user, s, [], last.queue);
    assert Locked(last.user, s);
    assert UnlockMessage(u, s, times[t - 1]) in last.queue;
    FailLoginsSplit(u, s, times[..t], times[t..], q);
    assert times[..t] + times[t..] == times;
    FailLoginsEffect(last.user, s, times[t..], last.queue);
    assert !HasPendingUnlock(q, u.id);
  }

  /** Failures that stay below a positive threshold queue nothing. */
  lemma {:induction false} FailLoginsBeforeThreshold(u: User, s: Settings, times: seq<int>, q: set<Message>)
    requires s.maxFailedLoginAttempts > 0 && u.failedLoginAttempts + |times| < s.maxFailedLoginAttempts
    ensures FailLogins(u, s, times, q).queue == q
    ensures FailLogins(u, s, times, q).user.failedLoginAttempts == u.failedLoginAttempts + |times|
    ensures FailLogins(u, s, times, q).user.id == u.id
    decreases |times|
  {
    if |times| > 0 {
      var a := FailLogin(u, s, times[0], q);
      FailLoginsBeforeThreshold(a.user, s, times[1..], a.queue);
    }
  }

  /** Failed logins at `xs + ys` are those at `xs` followed by those at `ys`. */
  lemma {:induction false} FailLoginsSplit(u: User, s: Settings, xs: seq<int>, ys: seq<int>, q: set<Message>)
    ensures var a := FailLogins(u, s, xs, q);
      FailLogins(u, s, xs + ys, q) == FailLogins(a.user, s, ys, a.queue)
    decreases |xs|
  {
    if |xs| > 0 {
      var a := FailLogin(u, s, xs[0], q);
      assert (xs + ys)[1..] == xs[1..] + ys;
      FailLoginsSplit(a.user, s, xs[1..], ys, a.queue);
    } else {
      assert xs + ys == ys;
    }
  }
}

=== FILE: miq_queue.dfy ===
/** The part of the work queue (`MiqQueue`) the account lockout uses: a set
    of pending messages and `put_unless_exists`, which adds a message only
    when none with the same target (class, instance, method) is pending. */
module MiqQueue {

  /** `MiqQueue::MAX_PRIORITY`, the most urgent priority. */
  const MaxPriority: int := 0

  /** A pending queued call: `class_name.find(instance_id).method_name`, to be
      delivered no earlier than `deliverOn` (seconds). */
  datatype Message = Message(
    className: string,
    instanceId: nat,
    methodName: string,
    priority: int,
    deliverOn: int)

  /** Two messages address the same call. */
  predicate SameTarget(a: Message, b: Message) {
    a.className == b.className && a.instanceId == b.instanceId && a.methodName == b.methodName
  }

  /** A message with the target of `m` is pending in `q`. */
  predicate HasPending(q: set<Message>, m: Message) {
    exists e :: e in q && SameTarget(e, m)
  }

  /** The pending messages with the target of `m`. */
  function Pending(q: set<Message>, m: Message): set<Message> {
    set e | e in q && SameTarget(e, m)
  }

  /** No two pending messages share a target. */
  ghost predicate Deduplicated(q: set<Message>) {
    forall a, b :: a in q && b in q && SameTarget(a, b) ==> a == b
  }

  /** `put_unless_exists(m)`: adds `m` unless a message with its target is
      already pending, in which case the queue is left as it was. */
  function PutUnlessExists(q: set<Message>, m: Message): (r: set<Message>)
    ensures q <= r && r - q <= {m}
    ensures HasPending(r, m)
    ensures HasPending(q, m) ==> r == q
    ensures !HasPending(q, m) ==> m in r
    ensures Deduplicated(q) ==> Deduplicated(r)
  {
    if HasPending(q, m) then q else q + {m}
  }

  /** Putting a message for the same target again changes nothing. */
  lemma PutUnlessExistsIdempotent(q: set<Message>, m: Message, m': Message)
    requires SameTarget(m, m')
    ensures PutUnlessExists(PutUnlessExists(q, m), m') == PutUnlessExists(q, m)
  {
  }

  /** In a deduplicated queue a target has at most one pending message, and
      exactly one once one has been put. */
  lemma DeduplicatedPendingAtMostOne(q: set<Message>, m: Message)
    requires Deduplicated(q)
    ensures |Pending(q, m)| <= 1
    ensures HasPending(q, m) ==> |Pending(q, m)| == 1
  {
    var p := Pending(q, m);
    if HasPending(q, m) {
      var e :| e in q && SameTarget(e, m);
      assert e in p;
      assert p == {e} by {
        forall x | x in p
          ensures x == e
        {
          assert SameTarget(x, e);
        }
      }
    } else {
      assert p == {};
    }
  }
}

=== FILE: results.dfy ===
/** Option and Result: Ruby's `nil` and raised errors, made explicit. */
module Results {

  /** A value that may be absent (Ruby `nil`). */
  datatype Option<+T> = None | Some(value: T) {

    /** The value, or `default` when absent. */
    function GetOr(default: T): T {
      match this
      case Some(v) => v
      case None => default
    }
  }

  /** The outcome of an operation that either succeeds or raises. */
  datatype Result<+T, +E> = Ok(value: T) | Err(error: E)
}

=== FILE: seqs.dfy ===
/** Searching a sequence, as Ruby's `Enumerable#detect` does. */
module Seqs {
  import opened Results

  /** The index of the first element satisfying `p`, or None when no element does. */
  function FirstIndex<T>(s: seq<T>, p: T -> bool): (r: Option<nat>)
    ensures r.Some? ==> r.value < |s| && p(s[r.value])
    ensures r.Some? ==> forall j :: 0 <= j < r.value ==> !p(s[j])
    ensures r.None? <==> forall j :: 0 <= j < |s| ==> !p(s[j])
  {
    if |s| == 0 then None
    else if p(s[0]) then Some(0)
    else
      match FirstIndex(s[1..], p)
      case None => None
      case Some(k) => Some(k + 1)
  }

  /** `detect`: the first element satisfying `p`. */
  function Detect<T>(s: seq<T>, p: T -> bool): (r: Option<T>)
    ensures r.Some? ==> r.value in s && p(r.value)
    ensures r.Some? ==> exists k :: 0 <= k < |s| && s[k] == r.value
                                    && forall j :: 0 <= j < k ==> !p(s[j])
    ensures r.None? <==> forall j :: 0 <= j < |s| ==> !p(s[j])
  {
    match FirstIndex(s, p)
    case None => None
    case Some(k) => Some(s[k])
  }
}

=== FILE: text.dfy ===
/** The string operations the models rely on: Ruby's `downcase`, ActiveSupport's
    `blank?`, string interpolation and `Array#join`. */
module Text {

  predicate IsAsciiUpper(c: char) {
    'A' <= c <= 'Z'
  }

  /** `String#downcase` on one character, restricted to ASCII letters. */
  function LowerChar(c: char): (d: char)
    ensures !IsAsciiUpper(d)
    ensures !IsAsciiUpper(c) ==> d == c
  {
    if IsAsciiUpper(c) then (c as int + 32) as char else c
  }

  /** `String#downcase`, restricted to ASCII letters. */
  function Downcase(s: string): (r: string)
    ensures |r| == |s|
    ensures forall i :: 0 <= i < |s| ==> r[i] == LowerChar(s[i])
    ensures forall i :: 0 <= i < |r| ==> !IsAsciiUpper(r[i])
  {
    seq(|s|, i requires 0 <= i < |s| => LowerChar(s[i]))
  }

  /** A string with no upper-case letter is its own lower-case form. */
  lemma DowncaseFixesLower(s: string)
    requires forall i :: 0 <= i < |s| ==> !IsAsciiUpper(s[i])
    ensures Downcase(s) == s
  {
  }

  lemma DowncaseIdempotent(s: string)
    ensures Downcase(Downcase(s)) == Downcase(s)
  {
  }

  /** Two characters are equal ignoring case: the same character, or an ASCII
      letter and its other-case form. */
  predicate SameCharIgnoringCase(c: char, d: char) {
    c == d
    || (IsAsciiUpper(c) && d as int == c as int + 32)
    || (IsAsciiUpper(d) && c as int == d as int + 32)
  }

  /** Case-insensitive equality, as the `i` flag of a Ruby regular expression
      applies it to ASCII letters: position by position, the characters are
      equal ignoring case. */
  predicate EqualsIgnoreCase(a: string, b: string) {
    |a| == |b| && forall i :: 0 <= i < |a| ==> SameCharIgnoringCase(a[i], b[i])
  }

  /** Two characters lower-case alike exactly when they are equal ignoring case. */
  lemma LowerCharMatchesIgnoringCase(c: char, d: char)
    ensures LowerChar(c) == LowerChar(d) <==> SameCharIgnoringCase(c, d)
  {
  }

  /** Two strings lower-case alike exactly when they are equal ignoring case. */
  lemma DowncaseMatchesIgnoringCase(a: string, b: string)
    ensures Downcase(a) == Downcase(b) <==> EqualsIgnoreCase(a, b)
  {
    forall i | 0 <= i < |a| && i < |b|
      ensures LowerChar(a[i]) == LowerChar(b[i]) <==> SameCharIgnoringCase(a[i], b[i])
    {
      LowerCharMatchesIgnoringCase(a[i], b[i]);
    }
    if EqualsIgnoreCase(a, b) {
      assert forall i :: 0 <= i < |a| ==> Downcase(a)[i] == Downcase(b)[i];
    }
  }

  /** The characters of the POSIX class `[[:space:]]` in Ruby's Unicode mode. */
  predicate IsSpace(c: char) {
    var n := c as int;
    (9 <= n <= 13) || n == 32 || n == 0x85 || n == 0xA0 || n == 0x1680
    || (0x2000 <= n <= 0x200A) || n == 0x2028 || n == 0x2029 || n == 0x202F
    || n == 0x205F || n == 0x3000
  }

  /** ActiveSupport's `String#blank?`: empty or only whitespace. */
  predicate IsBlank(s: string) {
    forall i :: 0 <= i < |s| ==> IsSpace(s[i])
  }

  /** `needle` occurs in `hay` starting at position `i`. */
  predicate OccursAt(hay: string, needle: string, i: int) {
    0 <= i <= |hay| - |needle| && hay[i..i + |needle|] == needle
  }

  /** `needle` occurs in `hay` as a contiguous substring. */
  predicate Contains(hay: string, needle: string) {
    exists i :: 0 <= i <= |hay| - |needle| && OccursAt(hay, needle, i)
  }

  lemma ContainsMiddle(a: string, b: string, c: string)
    ensures Contains(a + b + c, b)
  {
    var s := a + b + c;
    assert s[|a|..|a| + |b|] == b;
    assert OccursAt(s, b, |a|);
  }

  /** A substring of `rest` is a substring of anything ending in `rest`. */
  lemma ContainsAppend(pre: string, rest: string, needle: string)
    requires Contains(rest, needle)
    ensures Contains(pre + rest, needle)
  {
    var i :| 0 <= i <= |rest| - |needle| && OccursAt(rest, needle, i);
    assert (pre + rest)[|pre| + i..|pre| + i + |needle|] == rest[i..i + |needle|];
    assert OccursAt(pre + rest, needle, |pre| + i);
  }

  /** `Array#join(sep)`. */
  function Join(xs: seq<string>, sep: string): string {
    if |xs| == 0 then ""
    else if |xs| == 1 then xs[0]
    else xs[0] + sep + Join(xs[1..], sep)
  }

  /** Every joined element occurs in the joined string. */
  lemma {:induction false} JoinContains(xs: seq<string>, sep: string, k: nat)
    requires k < |xs|
    ensures Contains(Join(xs, sep), xs[k])
  {
    if |xs| == 1 {
      var j := Join(xs, sep);
      assert j == xs[0];
      assert j[0..|xs[0]|] == xs[0];
      assert OccursAt(j, xs[0], 0);
    } else if k == 0 {
      var j := Join(xs, sep);
      assert j == xs[0] + (sep + Join(xs[1..], sep));
      assert j[0..|xs[0]|] == xs[0];
      assert OccursAt(j, xs[0], 0);
    } else {
      JoinContains(xs[1..], sep, k - 1);
      assert xs[1..][k - 1] == xs[k];
      ContainsAppend(xs[0] + sep, Join(xs[1..], sep), xs[k]);
    }
  }

  predicate IsDigit(c: char) {
    '0' <= c <= '9'
  }

  /** The number a string of decimal digits denotes. */
  function DigitsValue(s: string): nat
    requires forall i :: 0 <= i < |s| ==> IsDigit(s[i])
  {
    if |s| == 0 then 0
    else
      assert IsDigit(s[|s| - 1]);
      DigitsValue(s[..|s| - 1]) * 10 + (s[|s| - 1] as int - '0' as int)
  }

  /** Decimal rendering of a natural number, as Ruby interpolates an Integer:
      a non-empty string of digits without a leading zero (other than "0"
      itself) that denotes `n`. */
  function NatToString(n: nat): (r: string)
    ensures |r| > 0
    ensures forall i :: 0 <= i < |r| ==> IsDigit(r[i])
    ensures n >= 10 ==> r[0] != '0'
    ensures DigitsValue(r) == n
  {
    var digit := [(48 + n % 10) as char];
    if n < 10 then digit else NatToString(n / 10) + digit
  }
}

=== FILE: user_groups.dfy ===
/** A user's current group among its group memberships: assigning the
    membership list (`miq_groups=`), switching to another member group
    (`change_current_group`) and choosing a group by its description
    (`current_group_by_description=`). */
module UserGroups {
  import opened Results
  import opened Seqs
  import opened Users

  /** `gs.include?(g)`: record equality compares ids. */
  predicate IsMember(gs: seq<Group>, g: Group) {
    exists i :: 0 <= i < |gs| && gs[i].id == g.id
  }

  /** The invariant the `current_group` inclusion validation enforces: the
      current group is nil or one of the user's groups. */
  predicate CurrentGroupValid(u: User) {
    u.currentGroup.None? || IsMember(u.groups, u.currentGroup.value)
  }

  /** `miq_groups = gs`: the membership becomes `gs`; a current group that is
      still a member is kept, otherwise the first of `gs` (nil when empty)
      becomes current. */
  function SetMiqGroups(u: User, gs: seq<Group>): (r: User)
    ensures r == u.(groups := gs, currentGroup := r.currentGroup)
    ensures CurrentGroupValid(r)
    ensures u.currentGroup.Some? && IsMember(gs, u.currentGroup.value) ==> r.currentGroup == u.currentGroup
    ensures !(u.currentGroup.Some? && IsMember(gs, u.currentGroup.value)) ==>
      r.currentGroup == (if |gs| == 0 then None else Some(gs[0]))
    ensures |gs| == 0 ==> r.currentGroup.None?
  {
    var current :=
      if u.currentGroup.None? || !IsMember(gs, u.currentGroup.value) then
        (if |gs| == 0 then None else Some(gs[0]))
      else u.currentGroup;
    u.(groups := gs, currentGroup := current)
  }

  /** Assigning the same membership twice changes nothing more. */
  lemma SetMiqGroupsIdempotent(u: User, gs: seq<Group>)
    ensures SetMiqGroups(SetMiqGroups(u, gs), gs) == SetMiqGroups(u, gs)
  {
  }

  const NoOtherGroupMessage: string :=
    "The user's current group cannot be changed because the user does not belong to any other group"

  /** `miq_group_ids.delete(current_group_id)` keeps a group: its id is not the
      current group's id (every group is kept when there is no current group). */
  predicate IsOtherGroup(u: User, g: Group) {
    u.currentGroup.None? || g.id != u.currentGroup.value.id
  }

  /** `change_current_group`: raises when every group of the user is the
      current one; otherwise the first other member group becomes current, the
      `save!` clears a blank email, and nothing else changes. */
  function ChangeCurrentGroup(u: User): (r: Result<User, string>)
    ensures r.Err? <==> forall j :: 0 <= j < |u.groups| ==> !IsOtherGroup(u, u.groups[j])
    ensures r.Err? ==> r.error == NoOtherGroupMessage
    ensures r.Ok? ==> r.value == NilEmailFieldIfBlank(u).(currentGroup := r.value.currentGroup)
    ensures r.Ok? ==> CurrentGroupValid(r.value)
    ensures r.Ok? ==> exists k :: 0 <= k < |u.groups| && r.value.currentGroup == Some(u.groups[k])
                                  && IsOtherGroup(u, u.groups[k])
                                  && forall j :: 0 <= j < k ==> !IsOtherGroup(u, u.groups[j])
    ensures r.Ok? && u.currentGroup.Some? ==> r.value.currentGroup.value.id != u.currentGroup.value.id
  {
    match FirstIndex(u.groups, (g: Group) => IsOtherGroup(u, g))
    case None => Err(NoOtherGroupMessage)
    case Some(k) => Ok(NilEmailFieldIfBlank(u).(currentGroup := Some(u.groups[k])))
  }

  /** A membership holding two groups with different ids always lets the
      current group be changed after it is assigned. */
  lemma ChangeAfterTwoDistinctGroups(u: User, gs: seq<Group>, i: nat, j: nat)
    requires i < |gs| && j < |gs| && gs[i].id != gs[j].id
    ensures ChangeCurrentGroup(SetMiqGroups(u, gs)).Ok?
  {
  }

  /** `super_admin_user?`, delegated through the current group's role (nil is false). */
  predicate IsSuperAdmin(u: User) {
    u.currentGroup.Some? && u.currentGroup.value.role.Some? && u.currentGroup.value.role.value.superAdmin
  }

  /** `current_group_by_description = desc`: a nil description changes nothing;
      otherwise the first member group with that description becomes current;
      failing that, a super administrator gets the region's group with that
      description (`regionGroups`, searched in order); failing both, nothing
      changes. */
  function CurrentGroupByDescription(u: User, desc: Option<string>, regionGroups: seq<Group>): (r: User)
    ensures r == u.(currentGroup := r.currentGroup)
    ensures desc.None? ==> r == u
    ensures r.currentGroup != u.currentGroup ==>
      desc.Some? && r.currentGroup.Some? && r.currentGroup.value.description == desc.value
    ensures desc.Some? && (exists i :: 0 <= i < |u.groups| && u.groups[i].description == desc.value) ==>
      exists k :: 0 <= k < |u.groups| && r.currentGroup == Some(u.groups[k])
                  && u.groups[k].description == desc.value
                  && forall j :: 0 <= j < k ==> u.groups[j].description != desc.value
    ensures (desc.Some? && (forall i :: 0 <= i < |u.groups| ==> u.groups[i].description != desc.value)
             && !IsSuperAdmin(u)) ==> r == u
    ensures (desc.Some? && (forall i :: 0 <= i < |u.groups| ==> u.groups[i].description != desc.value)
             && IsSuperAdmin(u)
             && (exists i :: 0 <= i < |regionGroups| && regionGroups[i].description == desc.value)) ==>
      exists k :: 0 <= k < |regionGroups| && r.currentGroup == Some(regionGroups[k])
                  && regionGroups[k].description == desc.value
                  && forall j :: 0 <= j < k ==> regionGroups[j].description != desc.value
    ensures (desc.Some? && (forall i :: 0 <= i < |u.groups| ==> u.groups[i].description != desc.value)
             && (!IsSuperAdmin(u)
                 || forall i :: 0 <= i < |regionGroups| ==> regionGroups[i].description != desc.value)) ==> r == u
  {
    match desc
    case None => u
    case Some(d) =>
      var member := Detect(u.groups, (g: Group) => g.description == d);
      var desired :=
        if member.Some? then member
        else if IsSuperAdmin(u) then Detect(regionGroups, (g: Group) => g.description == d)
        else None;
      if desired.Some? then
        u.(currentGroup := desired)
      else u
  }
}

=== FILE: users.dfy ===
/** The platform user record (`User`) and the checks run on it before it is
    saved or destroyed: the reserved-userid validation, the blank-email
    normalisation, the lower-case projections, the destroy guard, the
    administrator test and the missing-feature report used at login. */
module Users {
  import opened Results
  import opened Text

  /** A user role; `superAdmin` is the role's `super_admin_user?`. */
  datatype Role = Role(name: string, superAdmin: bool)

  /** An authorization group (`MiqGroup`) and the role it grants. */
  datatype Group = Group(id: nat, description: string, role: Option<Role>)

  /** The attributes of a `User` the models read or write. `groups` is the
      ordered membership list (`miq_groups`). */
  datatype User = User(
    id: nat,
    userid: Option<string>,
    email: Option<string>,
    failedLoginAttempts: nat,
    currentGroup: Option<Group>,
    groups: seq<Group>)

  /** The attribute a validation error is attached to. */
  datatype Attribute = UseridAttribute | BaseAttribute

  datatype FieldError = FieldError(attribute: Attribute, message: string)

  const ReservedUserid: string := "system"
  const ReservedUseridMessage: string := "'system' is reserved for EVM internal operations"
  const AdminUserid: string := "admin"

  // ---------------------------------------------------------------------
  // Lower-case projections and email normalisation

  /** `lower_email`: the email in lower case, nil when there is none. */
  function LowerEmail(u: User): (r: Option<string>)
    ensures r.None? <==> u.email.None?
    ensures r.Some? ==> EqualsIgnoreCase(r.value, u.email.value) && Downcase(r.value) == r.value
  {
    DowncaseIdempotent(u.email.GetOr(""));
    DowncaseMatchesIgnoringCase(Downcase(u.email.GetOr("")), u.email.GetOr(""));
    match u.email
    case None => None
    case Some(e) => Some(Downcase(e))
  }

  /** `lower_userid`: the userid in lower case, nil when there is none. */
  function LowerUserid(u: User): (r: Option<string>)
    ensures r.None? <==> u.userid.None?
    ensures r.Some? ==> EqualsIgnoreCase(r.value, u.userid.value) && Downcase(r.value) == r.value
  {
    DowncaseIdempotent(u.userid.GetOr(""));
    DowncaseMatchesIgnoringCase(Downcase(u.userid.GetOr("")), u.userid.GetOr(""));
    match u.userid
    case None => None
    case Some(id) => Some(Downcase(id))
  }

  /** Two users share a lower-case userid exactly when their userids are equal
      ignoring case; this is the key `unique_within_region` compares. */
  lemma LowerUseridMatchesIgnoringCase(a: User, b: User)
    requires a.userid.Some? && b.userid.Some?
    ensures LowerUserid(a) == LowerUserid(b) <==> EqualsIgnoreCase(a.userid.value, b.userid.value)
  {
    DowncaseMatchesIgnoringCase(a.userid.value, b.userid.value);
  }

  /** `nil_email_field_if_blank`: a blank email becomes nil, any other is kept.
      The result never holds a blank email and nothing but the email changes. */
  function NilEmailFieldIfBlank(u: User): (r: User)
    ensures r == u.(email := r.email)
    ensures r.email.Some? ==> !IsBlank(r.email.value)
    ensures u.email.Some? && !IsBlank(u.email.value) ==> r.email == u.email
    ensures u.email.Some? && IsBlank(u.email.value) ==> r.email.None?
  {
    match u.email
    case Some(e) => if IsBlank(e) then u.(email := None) else u
    case None => u
  }

  lemma NilEmailFieldIfBlankIdempotent(u: User)
    ensures NilEmailFieldIfBlank(NilEmailFieldIfBlank(u)) == NilEmailFieldIfBlank(u)
  {
  }

  // ---------------------------------------------------------------------
  // The reserved-userid validation

  /** Ruby's `^`: position `i` starts a line. */
  predicate LineStart(s: string, i: int)
    requires 0 <= i <= |s|
  {
    i == 0 || s[i - 1] == '\n'
  }

  /** Ruby's `$`: position `i` ends a line. */
  predicate LineEnd(s: string, i: int)
    requires 0 <= i <= |s|
  {
    i == |s| || s[i] == '\n'
  }

  /** `s =~ /^system$/i` is non-nil: some LINE of `s` is "system" ignoring case,
      because `^` and `$` are line anchors in Ruby. */
  predicate MatchesReservedAsWritten(s: string) {
    exists i :: 0 <= i <= |s| - |ReservedUserid| && ReservedLineAt(s, i)
  }

  predicate ReservedLineAt(s: string, i: int)
    requires 0 <= i <= |s| - |ReservedUserid|
  {
    LineStart(s, i) && LineEnd(s, i + |ReservedUserid|)
    && EqualsIgnoreCase(s[i..i + |ReservedUserid|], ReservedUserid)
  }

  /** The whole userid is "system" ignoring case. */
  predicate IsReserved(s: string) {
    EqualsIgnoreCase(s, ReservedUserid)
  }

  /** `validate` as written: a userid error whenever a line of the userid
      matches, nothing for a nil userid. */
  function ValidateAsWritten(u: User): (errs: seq<FieldError>)
    ensures |errs| <= 1
    ensures errs != [] <==> u.userid.Some? && MatchesReservedAsWritten(u.userid.value)
    ensures forall k :: 0 <= k < |errs| ==> errs[k] == FieldError(UseridAttribute, ReservedUseridMessage)
  {
    match u.userid
    case Some(id) =>
      if MatchesReservedAsWritten(id) then [FieldError(UseridAttribute, ReservedUseridMessage)] else []
    case None => []
  }

  /** `validate` with the whole-string match its message describes: exactly the
      userids whose lower-case form is "system" are refused. */
  function Validate(u: User): (errs: seq<FieldError>)
    ensures |errs| <= 1
    ensures errs != [] <==> u.userid.Some? && Downcase(u.userid.value) == "system"
    ensures forall k :: 0 <= k < |errs| ==> errs[k] == FieldError(UseridAttribute, ReservedUseridMessage)
  {
    DowncaseFixesLower(ReservedUserid);
    match u.userid
    case Some(id) =>
      DowncaseMatchesIgnoringCase(id, ReservedUserid);
      if IsReserved(id) then [FieldError(UseridAttribute, ReservedUseridMessage)] else []
    case None => []
  }

  /** Every userid the corrected validation refuses, the written one refuses too. */
  lemma ValidateRefinesAsWritten(u: User)
    ensures Validate(u) != [] ==> ValidateAsWritten(u) != []
  {
    if Validate(u) != [] {
      var s := u.userid.value;
      assert s[0..|ReservedUserid|] == s;
      assert ReservedLineAt(s, 0);
    }
  }

  /** A multi-line userid whose second line is "system" is refused by the
      written validation although it is not the reserved userid. */
  lemma ValidateAsWrittenRefusesMultilineUserid()
    ensures var u := User(1, Some("ops\nsystem"), None, 0, None, []);
      ValidateAsWritten(u) != [] && Validate(u) == []
  {
    var s := "ops\nsystem";
    assert s[4..10] == ReservedUserid;
    DowncaseFixesLower(ReservedUserid);
    assert ReservedLineAt(s, 4);
    assert Downcase(s)[0] == 'o';
  }

  // ---------------------------------------------------------------------
  // The destroy guard

  /** The associations whose presence blocks destruction, in checking order. */
  datatype Association = MiqRequests | Vms | MiqWidgets | MiqTemplates

  const CheckedAssociations: seq<Association> := [MiqRequests, Vms, MiqWidgets, MiqTemplates]

  /** How many records each association holds for the user. */
  datatype References = References(miqRequests: nat, vms: nat, miqWidgets: nat, miqTemplates: nat)

  /** `association.classify`. */
  function ClassName(a: Association): string {
    match a
    case MiqRequests => "MiqRequest"
    case Vms => "Vm"
    case MiqWidgets => "MiqWidget"
    case MiqTemplates => "MiqTemplate"
  }

  /** `public_send(association).first` is not nil. */
  predicate Present(refs: References, a: Association) {
    match a
    case MiqRequests => refs.miqRequests > 0
    case Vms => refs.vms > 0
    case MiqWidgets => refs.miqWidgets > 0
    case MiqTemplates => refs.miqTemplates > 0
  }

  /** The class names of the present associations among `assocs`, in order. */
  function PresentModels(refs: References, assocs: seq<Association>): seq<string> {
    if |assocs| == 0 then []
    else PresentModels(refs, assocs[..|assocs| - 1])
         + (if Present(refs, assocs[|assocs| - 1]) then [ClassName(assocs[|assocs| - 1])] else [])
  }

  /** The referenced models, written out field by field in the fixed order
      MiqRequest, Vm, MiqWidget, MiqTemplate. */
  function ReferencedModels(refs: References): seq<string> {
    (if refs.miqRequests > 0 then ["MiqRequest"] else [])
    + (if refs.vms > 0 then ["Vm"] else [])
    + (if refs.miqWidgets > 0 then ["MiqWidget"] else [])
    + (if refs.miqTemplates > 0 then ["MiqTemplate"] else [])
  }

  /** Filtering the checked associations in order gives the field-by-field list. */
  lemma PresentModelsOfChecked(refs: References)
    ensures PresentModels(refs, CheckedAssociations) == ReferencedModels(refs)
  {
    var c := CheckedAssociations;
    assert c[..1][..0] == [];
    assert PresentModels(refs, c[..1]) == (if refs.miqRequests > 0 then ["MiqRequest"] else []);
    assert c[..2][..1] == c[..1];
    assert PresentModels(refs, c[..2]) == PresentModels(refs, c[..1])
      + (if refs.vms > 0 then ["Vm"] else []);
    assert c[..3][..2] == c[..2];
    assert PresentModels(refs, c[..3]) == PresentModels(refs, c[..2])
      + (if refs.miqWidgets > 0 then ["MiqWidget"] else []);
    assert c[..3] == c[..|c| - 1];
    assert PresentModels(refs, c) == PresentModels(refs, c[..3])
      + (if refs.miqTemplates > 0 then ["MiqTemplate"] else []);
  }

  /** The verdict of a `before_destroy` callback. */
  datatype DestroyVerdict = Proceed | Abort(error: FieldError)

  /** The base error `check_reference` attaches before aborting. */
  function ReferenceError(u: User, models: seq<string>): FieldError {
    FieldError(BaseAttribute,
      "user '" + u.userid.GetOr("") + "' with id [" + NatToString(u.id)
      + "] has references to other models: " + Join(models, " "))
  }

  /** `check_reference`: aborts exactly when one of the four associations is
      non-empty, naming every non-empty one, and only those, in the fixed order. */
  method CheckReference(u: User, refs: References) returns (verdict: DestroyVerdict)
    ensures verdict.Abort? <==>
      refs.miqRequests > 0 || refs.vms > 0 || refs.miqWidgets > 0 || refs.miqTemplates > 0
    ensures verdict.Abort? ==> verdict.error == ReferenceError(u, ReferencedModels(refs))
  {
    var presentRef: seq<string> := [];
    var i := 0;
    while i < |CheckedAssociations|
      invariant 0 <= i <= |CheckedAssociations|
      invariant presentRef == PresentModels(refs, CheckedAssociations[..i])
    {
      var association := CheckedAssociations[i];
      assert CheckedAssociations[..i + 1][..i] == CheckedAssociations[..i];
      if Present(refs, association) {
        presentRef := presentRef + [ClassName(association)];
      }
      i := i + 1;
    }
    assert CheckedAssociations[..4] == CheckedAssociations;
    PresentModelsOfChecked(refs);
    if presentRef != [] {
      verdict := Abort(ReferenceError(u, presentRef));
    } else {
      verdict := Proceed;
    }
  }

  /** The abort message names every referenced model. */
  lemma ReferenceErrorNamesModels(u: User, refs: References, k: nat)
    requires k < |ReferencedModels(refs)|
    ensures Contains(ReferenceError(u, ReferencedModels(refs)).message, ReferencedModels(refs)[k])
  {
    var models := ReferencedModels(refs);
    var head := "user '" + u.userid.GetOr("") + "' with id [" + NatToString(u.id)
      + "] has references to other models: ";
    JoinContains(models, " ", k);
    ContainsAppend(head, Join(models, " "), models[k]);
    assert ReferenceError(u, models).message == head + Join(models, " ");
  }

  // ---------------------------------------------------------------------
  // Administrator test and missing-feature report

  /** `admin?`: the userid is exactly "admin", with case significant. */
  function IsAdmin(u: User): (r: bool)
    ensures r ==> u.userid.Some? && |u.userid.value| == 5 && LowerUserid(u) == Some(AdminUserid)
    ensures r <==> u.userid.Some? && u.userid.value == AdminUserid
  {
    DowncaseFixesLower(AdminUserid);
    u.userid == Some(AdminUserid)
  }

  /** Unlike the userid uniqueness check, `admin?` is case-sensitive. */
  lemma AdminIsCaseSensitive()
    ensures var u := User(1, Some("ADMIN"), None, 0, None, []);
      !IsAdmin(u) && LowerUserid(u) == Some(AdminUserid)
  {
    var s := "ADMIN";
    assert Downcase(s) == AdminUserid;
  }

  /** The feature names `missing_user_features` reports. */
  const UserFeature: string := "User"
  const GroupFeature: string := "Group"
  const RoleFeature: string := "Role"

  /** Every missing feature, in the order User, Group, Role; a missing user
      implies a missing group, and a missing group a missing role. */
  function MissingFeatures(dbUser: Option<User>): seq<string> {
    var noUser := dbUser.None?;
    var noGroup := noUser || dbUser.value.currentGroup.None?;
    var noRole := noGroup || dbUser.value.currentGroup.value.role.None?;
    (if noUser then [UserFeature] else [])
    + (if noGroup then [GroupFeature] else [])
    + (if noRole then [RoleFeature] else [])
  }

  /** `missing_user_features`: the first missing feature, nil when the user,
      its current group and that group's role are all present. */
  function MissingUserFeatures(dbUser: Option<User>): (r: Option<string>)
    ensures r.None? <==> MissingFeatures(dbUser) == []
    ensures r.Some? ==> r.value == MissingFeatures(dbUser)[0]
    ensures r.None? <==> dbUser.Some? && dbUser.value.currentGroup.Some?
                         && dbUser.value.currentGroup.value.role.Some?
  {
    if dbUser.None? then Some(UserFeature)
    else if dbUser.value.currentGroup.None? then Some(GroupFeature)
    else if dbUser.value.currentGroup.value.role.None? then Some(RoleFeature)
    else None
  }
}
